=== FILE: README.md ===
# mongodb-maven-plugin: the start and stop goals and the process observer

This project models the process-supervision core of the MongoDB Maven
plugin in Dafny:

- The `start` goal (`StartMongoMojo.execute`) is modelled as a decision
  procedure. In order, it:
  - honours the skip flag;
  - probes the port to refuse one that is already serving;
  - resolves the `mongod` executable;
  - checks or creates the database root;
  - builds the server's argument vector;
  - launches the server;
  - polls until it answers, the child exits, or the deadline passes;
  - either fails with the child's result or publishes the process observer in the plugin context.

  The network probes, the filesystem, the operating-system family, the clock
  and the child's result are inputs. The model returns the outcome, the
  ordered list of externally visible actions and the resulting context.
- The `stop` goal (`StopMongoMojo.execute`) looks up the observer under the
  port's key. It destroys every process in a snapshot of the observer, waits
  for each process until its wait returns, and removes the context entry
  when the observer's `size()` is zero. `waitFor` is an oracle that answers
  one of two ways:
  - returned, with or without the executor having already unregistered the process;
  - interrupted.
- `ProcessObserver` is the process registry. It keeps a local set and
  forwards `add`/`remove` to a delegate destroyer. `size()` reports the
  delegate's count, and `iterator()` walks a copy of the local set. The
  delegate is abstract: its three operations act on a state of any type.

Modules:

- `Common`: `Option`, `Result`, process ids, and sequences that enumerate a set.
- `Decimal`: `Integer.toString` and its inverse.
- `ProcessObserver`
- `PluginContext`: the observer key.
- `StartMongo`
- `StopMongo`
- `Lifecycle`: start and stop together.

When the 120-second deadline passes with no answer from the server and no
result from the child, the goal falls through to the publication and
succeeds, and the server keeps running. `StartMongo.TimeoutStillPublishes`
states this.

## Model

All source paths are below `src/main/java/com/github/stephenc/mongodb/maven/`.
The table repeats that prefix in full.

| member | source | states |
|---|---|---|
| ProcessObserver.New | src/main/java/com/github/stephenc/mongodb/maven/ProcessObserver.java:32-34 | a new observer tracks no process locally and holds the given delegate |
| ProcessObserver.Add | src/main/java/com/github/stephenc/mongodb/maven/ProcessObserver.java:36-39 | after `add(p)`: `p` is tracked; no other process changes membership; re-adding a tracked process leaves the set as it was; the delegate receives `p` and its answer is returned |
| ProcessObserver.Remove | src/main/java/com/github/stephenc/mongodb/maven/ProcessObserver.java:41-44 | after `remove(p)`: `p` is untracked; no other process changes membership; removing an untracked process leaves the set as it was; the delegate receives `p` and its answer is returned |
| ProcessObserver.Iterator | src/main/java/com/github/stephenc/mongodb/maven/ProcessObserver.java:50-52 | the iteration yields every locally tracked process exactly once and nothing else |
| ProcessObserver.Size | src/main/java/com/github/stephenc/mongodb/maven/ProcessObserver.java:46-48 | no postcondition of its own: it reports the delegate's count (see its line under "Left out"); `SizeIsTheDelegatesCount`, `ReplayKeepsMirror` and `SizeOverSetDestroyer` state what that count is |
| Common.ToSequence | src/main/java/com/github/stephenc/mongodb/maven/ProcessObserver.java:51 | copying a set into an iteration order gives a duplicate-free sequence with exactly the set's elements |
| Decimal.IntToString | src/main/java/com/github/stephenc/mongodb/maven/StartMongoMojo.java:157 | the decimal rendering of an integer is canonical: a minus sign exactly for a negative integer, followed by digits with no leading zero ("0" alone for zero, never "-0") |
| ProcessObserver.ReplayMembership | src/main/java/com/github/stephenc/mongodb/maven/ProcessObserver.java:30-44 | after any sequence of calls, a process is tracked iff the last call naming it was an `add`, or iff it was tracked before when no call names it |
| ProcessObserver.ReplayKeepsMirror | src/main/java/com/github/stephenc/mongodb/maven/ProcessObserver.java:36-48 | suppose the delegate has set semantics, starts equal to the local set, and is changed only through the observer; then after any sequence of calls it still equals the local set, and `size()` is the local set's cardinality |
| ProcessObserver.AnswersUnderSetSemantics | src/main/java/com/github/stephenc/mongodb/maven/ProcessObserver.java:36-44 | under the same hypotheses, `add` answers true exactly for an untracked process and `remove` exactly for a tracked one |
| ProcessObserver.SizeOverSetDestroyer | src/main/java/com/github/stephenc/mongodb/maven/ProcessObserver.java:36-48 | over an initially empty set-like destroyer, after any calls the delegate holds exactly the tracked processes and `size()` counts them |
| ProcessObserver.SizeIsTheDelegatesCount | src/main/java/com/github/stephenc/mongodb/maven/ProcessObserver.java:46-48 | `size()` is the delegate's count, not the local one: with a delegate that keeps a list, adding one process twice tracks one process but reports two |
| Decimal.ParseIntToString | src/main/java/com/github/stephenc/mongodb/maven/StartMongoMojo.java:157 | the decimal rendering of every integer reads back as that integer |
| Decimal.ToStringParseInt | src/main/java/com/github/stephenc/mongodb/maven/StartMongoMojo.java:157 | every string the reader accepts is the rendering of the integer it reads, so the reader accepts exactly the canonical spellings and the rendering of a number is the only string that reads as it |
| Decimal.IntToStringInjective | src/main/java/com/github/stephenc/mongodb/maven/StopMongoMojo.java:46 | two integers have the same decimal rendering iff they are equal |
| PluginContext.ObserverKey | src/main/java/com/github/stephenc/mongodb/maven/StartMongoMojo.java:218 | the key for a port starts with the observer class's name and a colon and carries more after it |
| PluginContext.ObserverKeyRoundTrip | src/main/java/com/github/stephenc/mongodb/maven/StopMongoMojo.java:46 | the port can be read back from the key computed for it |
| PluginContext.ObserverKeyInjective | src/main/java/com/github/stephenc/mongodb/maven/StartMongoMojo.java:218 | two ports have the same key iff they are the same port |
| StartMongo.PreflightVerdict | src/main/java/com/github/stephenc/mongodb/maven/StartMongoMojo.java:108-120 | the goal goes on exactly after a network error or an unknown host. A listing means "already running" on that port with exactly the listed databases; any other driver error means "already running" with no list |
| StartMongo.ResolveExecutable | src/main/java/com/github/stephenc/mongodb/maven/StartMongoMojo.java:125-139 | the executable is `mongod.exe` on Windows and `mongod` elsewhere. It lives under the installation's `bin` iff an installation is given and is a directory, and is looked up on the path otherwise. Resolution fails, naming the installation and the expected file, iff the installation is a directory without the executable |
| StartMongo.CheckDatabaseRoot | src/main/java/com/github/stephenc/mongodb/maven/StartMongoMojo.java:140-148 | a root that is a file is an error. Directories are created iff the root is neither a file nor a directory, and that fails the goal iff creating them fails |
| StartMongo.Arguments | src/main/java/com/github/stephenc/mongodb/maven/StartMongoMojo.java:150-160 | the argument vector has 5 elements in verbose mode and 6 otherwise, and reads back as exactly the configured quiet flag (the negation of verbose), auth flag, port and database path |
| StartMongo.ArgumentsRoundTrip | src/main/java/com/github/stephenc/mongodb/maven/StartMongoMojo.java:150-160 | for any integer port, reading the argument vector back gives exactly the configured quiet flag, auth flag, port and database path |
| StartMongo.ArgumentsUnique | src/main/java/com/github/stephenc/mongodb/maven/StartMongoMojo.java:150-160 | a vector reads back as the configured settings iff it is the argument vector built for them, so every element, the port's canonical decimal spelling included, is determined |
| StartMongo.Readiness | src/main/java/com/github/stephenc/mongodb/maven/StartMongoMojo.java:180-205 | the loop retries exactly over the longest prefix of polls before the deadline, with no child result, that hit a network error. It then stops on the first other poll: the deadline, a child result, a readiness answer (listing or other driver error) or an unresolved host, each exactly when that poll shows it. A readiness answer carries the listed databases exactly when that poll listed them, and an unresolved host carries that exception's message |
| StartMongo.Retrying | src/main/java/com/github/stephenc/mongodb/maven/StartMongoMojo.java:187-199 | `n` retries are `n` rounds of probe then sleep |
| StartMongo.LoopActions | src/main/java/com/github/stephenc/mongodb/maven/StartMongoMojo.java:180-205 | the readiness loop takes a probe and a sleep per retry, in that order, then one more probe exactly when a probe ended the loop, and nothing else |
| StartMongo.Registered | src/main/java/com/github/stephenc/mongodb/maven/StartMongoMojo.java:165-174 | the observer the executor registers the child with tracks exactly the child locally, and its delegate, the shutdown-hook destroyer, has received the child too |
| StartMongo.PreLaunch | src/main/java/com/github/stephenc/mongodb/maven/StartMongoMojo.java:98-148 | the checks run in order: probe, then executable, then database root, each failure halting the next. When something answers the probe, the goal halts with exactly the preflight verdict after that probe alone. The goal proceeds iff all checks pass, and then its actions are the probe followed by a directory creation exactly when the database root had to be created |
| StartMongo.Supervise | src/main/java/com/github/stephenc/mongodb/maven/StartMongoMojo.java:173-221 | after the launch the command is executed once and first. A throwing launch ends the goal at once with its message; an unresolved host in the loop ends it with that exception's message. Otherwise the actions are exactly the execution, the readiness loop's probes and sleeps, and the publication when there is one. A child result fails the goal with its exception's message, or else with the command and exit value. The observer is published iff none of these happened, under the port's key with the child registered and as the last action; otherwise the context is untouched |
| StartMongo.Start | src/main/java/com/github/stephenc/mongodb/maven/StartMongoMojo.java:87-221 | the outcome is `Skipped` iff skip is set, and then nothing is done. Otherwise the probe is the first action; a failed check ends the goal with that check's outcome and actions, "already running" exactly when the probe found something answering, after that probe alone. When the checks pass, the actions are the checks' actions followed by the supervised run of the server command: the resolved executable with the configured argument vector. After the checks, a launch exception or an unresolved host ends the goal with its message. The observer is published iff the checks passed, no exception escaped and the child has no result after the loop; only then does the context change, with the port's key mapped to the observer registering the child, as the last action. A child with a result fails the goal with its exception's message, or else with the server command and its exit value |
| StartMongo.StartLaunches | src/main/java/com/github/stephenc/mongodb/maven/StartMongoMojo.java:125-174 | a command is executed iff every check passed, only after the checks, exactly once, and it is the server command: the executable the resolution found, with the configured argument vector |
| StartMongo.TimeoutStillPublishes | src/main/java/com/github/stephenc/mongodb/maven/StartMongoMojo.java:176-218 | when every poll is a retry or past the deadline and the child never has a result, the loop ends on the deadline and the goal still publishes |
| StartMongo.ChildResultFails | src/main/java/com/github/stephenc/mongodb/maven/StartMongoMojo.java:209-216 | when the result handler keeps a result once it has one, a readiness loop ended by the child's result always fails the goal, with the child's exception or its exit value, and the context is untouched |
| StopMongo.DestroyAll | src/main/java/com/github/stephenc/mongodb/maven/StopMongoMojo.java:52-57 | every snapshot process is destroyed, in snapshot order, and becomes awaited |
| StopMongo.WaitStep | src/main/java/com/github/stephenc/mongodb/maven/StopMongoMojo.java:60-68 | a wait on an awaited process keeps the reaping state. The process leaves the awaited set exactly when the wait returns, and the observer loses it exactly when the executor unregistered it |
| StopMongo.ObserverStep | src/main/java/com/github/stephenc/mongodb/maven/StopMongoMojo.java:63-64 | the observer after a wait is the one before, with the process removed exactly when the wait returned with it unregistered |
| StopMongo.WaitPass | src/main/java/com/github/stephenc/mongodb/maven/StopMongoMojo.java:59-69 | one pass waits once on each process awaited when the pass began, in the order of a fresh iteration over them, with the oracle's next outcomes, until every one was waited on or the oracle ran out; the reaping state is kept |
| StopMongo.PassAppended | src/main/java/com/github/stephenc/mongodb/maven/StopMongoMojo.java:58-70 | a pass over the processes still awaited, complete or cut short by the oracle, extends the passes so far: the waits keep following the passes in order |
| StopMongo.Reap | src/main/java/com/github/stephenc/mongodb/maven/StopMongoMojo.java:52-70 | the snapshot is the observer's set. All destroys precede all waits, and each wait is on a snapshot process, as the oracle says. The waits come in passes: each pass lists, in iteration order, exactly the processes whose wait had not returned when it began; the waits go through the passes in order with the oracle's outcomes in order, every pass complete except the last, which is cut short only when the oracle runs out. The awaited processes are those whose wait has not returned. It ends with none awaited or with the oracle exhausted. When every wait returns, one wait per process suffices |
| StopMongo.Stop | src/main/java/com/github/stephenc/mongodb/maven/StopMongoMojo.java:43-74 | with no entry under the key nothing happens. Otherwise the reaping state holds, the waits follow the passes as for `Reap`, and the goal finishes iff no process is awaited. After it finishes, the entry is removed iff `size()` is zero, and otherwise maps to the observer as stop left it. No other key is touched |
| StopMongo.NoWaitStep | src/main/java/com/github/stephenc/mongodb/maven/StopMongoMojo.java:59-64 | waiting only on processes that have not returned keeps every returned process out of later waits |
| Lifecycle.StartTouchesOnlyItsPort | src/main/java/com/github/stephenc/mongodb/maven/StartMongoMojo.java:217-218 | `start` on one port leaves every other port's entry present or absent, and equal, as before |
| Lifecycle.StopFindsWhatStartPublished | src/main/java/com/github/stephenc/mongodb/maven/StopMongoMojo.java:45-50 | after a publishing `start`, the key `stop` computes for the same port finds the observer tracking exactly the child |
| Lifecycle.StartThenStop | src/main/java/com/github/stephenc/mongodb/maven/StopMongoMojo.java:43-74 | over a set-like destroyer, when every wait returns with the child already unregistered by the executor, a publishing start followed by a stop destroys the child and then waits once. Stop finishes, the entry is removed, and every other key is as before the start |

## Left out

- `AbstractMongoMojo` (parameter injection and the plugin descriptor) is not part of this model. The `skip` flag and the configuration are inputs.
- The MongoDB driver is reduced to a probe outcome per attempt: its options, connection and timeouts, and the save and restore of the driver's logger level.
- The 120-second deadline, the wall clock and `Thread.sleep` are reduced to a "deadline passed" flag per poll. The readiness loop reads a finite sequence of polls, and running out of polls counts as reaching the deadline.
- commons-exec is reduced to inputs: spawning, stream pumping, the result handler and the shutdown-hook destroyer's internals. A launch error or a child result arrives as input. The executor's unregistration of an exited child arrives as a flag on each returned wait.
- `Process.destroy` and `waitFor` are abstract events. The stop goal's outer loop need not end. When the wait oracle runs out with processes still awaited, the model reports `Blocked`, which stands for a goal that never returns.
- The synchronised set and shutdown-hook races are left out because they are concurrency. The observer is a value, so a snapshot taken by `iterator()` cannot be changed by later calls; this holds by construction rather than as a lemma.
- Filesystem calls are boolean and string inputs: `isFile`, `isDirectory`, `mkdirs` and `getAbsolutePath`. `Os.isFamily` is an input too.
- Log messages, and the text of the goal's failure messages, are left out. The outcomes carry the data those messages show.
- StartMongo.Registered: the model assumes the executor has added the child to the observer, and not yet removed it, when the observer is published. In the code the observer is only handed to the executor (lines 165-174), and commons-exec adds the child and removes it on exit from its own thread. So at publication the observer may still be empty, or already emptied. `Lifecycle.StopFindsWhatStartPublished` and `Lifecycle.StartThenStop` rest on this assumption.
- StartMongo.Start: the inputs do not tie the result handler's state after the loop to the polls. A loop ended by a child result followed by no result, which the real handler cannot produce, would publish. `ResultPersists` names the missing link, and `ChildResultFails` shows that under it such a loop fails the goal.
- ProcessObserver.Size: stated without its own postcondition. It only reads the delegate's count. `SizeIsTheDelegatesCount`, `ReplayKeepsMirror` and `SizeOverSetDestroyer` state what it reports.

=== FILE: common.dfy ===
/** Small shared vocabulary: optional values, results, process handles and
    Java's 32-bit `int`. */
module Common {

  /** A value that may be absent (Java's `null`). */
  datatype Option<+T> = None | Some(value: T)

  /** Either a value or the error that stopped the computation. */
  datatype Result<+T, +E> = Success(value: T) | Failure(error: E)

  /** An opaque child-process handle; only its identity matters. */
  datatype Proc = Proc(pid: nat)

  /** Java's `int`, the type of the configured port. */
  type Int32 = i: int | -0x8000_0000 <= i < 0x8000_0000

  function Min(a: int, b: int): int
  {
    if a <= b then a else b
  }

  /** No element occurs twice in `s`. */
  predicate Distinct<T(==)>(s: seq<T>)
  {
    forall i, j :: 0 <= i < j < |s| ==> s[i] != s[j]
  }

  /** `s` lists every element of `xs` exactly once, the way an iterator over
      a hash set does. */
  predicate Enumerates<T(==)>(s: seq<T>, xs: set<T>)
  {
    Distinct(s) && xs == (set x | x in s)
  }

  lemma EnumeratesMembers<T>(s: seq<T>, xs: set<T>)
    requires Enumerates(s, xs)
    ensures forall i :: 0 <= i < |s| ==> s[i] in xs
    ensures forall x :: x in xs ==> x in s
  {
    assert forall i :: 0 <= i < |s| ==> s[i] in (set x | x in s);
  }

  /** A sequence without repetitions has as many elements as its set. */
  lemma {:induction false} DistinctCardinality<T>(s: seq<T>)
    requires Distinct(s)
    ensures |set x | x in s| == |s|
    decreases |s|
  {
    if |s| > 0 {
      var t := s[..|s| - 1];
      DistinctCardinality(t);
      assert (set x | x in s) == (set x | x in t) + {s[|s| - 1]};
    }
  }

  /** Lists the elements of a set in some order, each exactly once: the copy
      that `new HashSet<>(c).iterator()` walks. */
  method ToSequence<T>(xs: set<T>) returns (s: seq<T>)
    ensures Enumerates(s, xs)
  {
    s := [];
    var rest := xs;
    while rest != {}
      invariant Distinct(s)
      invariant forall i :: 0 <= i < |s| ==> s[i] !in rest
      invariant xs == rest + (set x | x in s)
      decreases rest
    {
      var x :| x in rest;
      s := s + [x];
      rest := rest - {x};
    }
  }
}

=== FILE: decimal.dfy ===
/** Decimal rendering of integers, as `Integer.toString(int)` produces it,
    and the parser that reads such a rendering back. */
module Decimal {
  import opened Common

  predicate IsDigit(c: char)
  {
    '0' <= c <= '9'
  }

  predicate AllDigits(s: string)
  {
    forall i :: 0 <= i < |s| ==> IsDigit(s[i])
  }

  function DigitChar(d: nat): (c: char)
    requires d < 10
    ensures IsDigit(c)
  {
    (48 + d) as char
  }

  function DigitValue(c: char): (d: nat)
    requires IsDigit(c)
    ensures d < 10
  {
    c as int - 48
  }

  /** The shortest decimal digit string of `n`, most significant digit first. */
  function NatToString(n: nat): (s: string)
    ensures |s| >= 1 && AllDigits(s)
    ensures |s| > 1 ==> s[0] != '0'
    decreases n
  {
    if n < 10 then [DigitChar(n)] else NatToString(n / 10) + [DigitChar(n % 10)]
  }

  /** `Integer.toString(i)`: a leading minus sign for negatives, no sign otherwise. */
  function IntToString(i: int): (s: string)
    ensures |s| >= 1
    ensures i < 0 <==> s[0] == '-'
    ensures i < 0 ==> |s| >= 2 && Canonical(s[1..])
    ensures i >= 0 ==> Canonical(s)
  {
    if i < 0 then "-" + NatToString(-i) else NatToString(i)
  }

  /** A digit string without a leading zero, except for "0" itself. */
  predicate Canonical(s: string)
  {
    |s| >= 1 && AllDigits(s) && (|s| == 1 || s[0] != '0')
  }

  /** The value of a string of decimal digits (the empty string reads as 0). */
  function DigitsValue(s: string): nat
    requires AllDigits(s)
    decreases |s|
  {
    if |s| == 0 then 0 else 10 * DigitsValue(s[..|s| - 1]) + DigitValue(s[|s| - 1])
  }

  /** Reads a decimal integer spelled as `Integer.toString` spells it: a
      minus sign before a non-zero magnitude, no leading zeros; anything
      else is `None`. */
  function ParseInt(s: string): (r: Option<int>)
    ensures r.Some? ==> |s| >= 1
  {
    if |s| >= 2 && s[0] == '-' && Canonical(s[1..]) && s[1] != '0' then Some(0 - DigitsValue(s[1..]) as int)
    else if Canonical(s) then Some(DigitsValue(s))
    else None
  }

  lemma {:induction false} DigitsValueOfNatToString(n: nat)
    ensures DigitsValue(NatToString(n)) == n
    decreases n
  {
    if n >= 10 {
      var s := NatToString(n);
      assert s[..|s| - 1] == NatToString(n / 10);
      DigitsValueOfNatToString(n / 10);
    }
  }

  /** Reading back the rendering of any integer yields that integer. */
  lemma ParseIntToString(i: int)
    ensures ParseInt(IntToString(i)) == Some(i)
  {
    var s := IntToString(i);
    if i < 0 {
      assert s[1..] == NatToString(-i);
      DigitsValueOfNatToString(-i);
    } else {
      DigitsValueOfNatToString(i);
    }
  }

  lemma {:induction false} LeadingDigitPositive(s: string)
    requires |s| >= 1 && AllDigits(s) && s[0] != '0'
    ensures DigitsValue(s) >= 1
    decreases |s|
  {
    if |s| > 1 {
      LeadingDigitPositive(s[..|s| - 1]);
    }
  }

  lemma {:induction false} NatToStringOfDigits(s: string)
    requires Canonical(s)
    ensures NatToString(DigitsValue(s)) == s
    decreases |s|
  {
    var d := DigitValue(s[|s| - 1]);
    assert DigitChar(d) == s[|s| - 1];
    if |s| > 1 {
      var t := s[..|s| - 1];
      NatToStringOfDigits(t);
      LeadingDigitPositive(t);
      assert s == t + [s[|s| - 1]];
    }
  }

  /** Whatever `ParseInt` accepts is the rendering of the integer it reads:
      with the round trip above, `IntToString` and `ParseInt` are inverse
      bijections between the integers and their canonical spellings. */
  lemma ToStringParseInt(s: string)
    ensures ParseInt(s).Some? ==> IntToString(ParseInt(s).value) == s
  {
    if |s| >= 2 && s[0] == '-' && Canonical(s[1..]) && s[1] != '0' {
      NatToStringOfDigits(s[1..]);
      LeadingDigitPositive(s[1..]);
      assert s == "-" + s[1..];
    } else if Canonical(s) {
      NatToStringOfDigits(s);
    }
  }

  /** Distinct integers have distinct renderings. */
  lemma IntToStringInjective(i: int, j: int)
    ensures IntToString(i) == IntToString(j) <==> i == j
  {
    if IntToString(i) == IntToString(j) {
      ParseIntToString(i);
      ParseIntToString(j);
    }
  }
}

=== FILE: lifecycle.dfy ===
/** The two goals together: the entry `start` publishes is the one `stop`
    looks up, no other port's entry is touched, and a start followed by a
    stop on the same port reaps the server and clears the entry. */
module Lifecycle {
  import opened Common
  import opened ProcessObserver
  import opened PluginContext
  import opened StartMongo
  import opened StopMongo

  /** `start` on one port leaves every other port's entry as it was. */
  lemma StartTouchesOnlyItsPort<D>(ops: DelegateOps<D>, initial: D, p: StartParams, host: Host, env: LaunchEnv,
                                   ctx: Context<D>, other: Int32)
    requires other != p.port
    ensures var r := Start(ops, initial, p, host, env, ctx);
            && (ObserverKey(other) in r.context <==> ObserverKey(other) in ctx)
            && (ObserverKey(other) in ctx ==> r.context[ObserverKey(other)] == ctx[ObserverKey(other)])
  {
    ObserverKeyInjective(p.port, other);
  }

  /** What `start` publishes is exactly what `stop` on the same port finds. */
  lemma StopFindsWhatStartPublished<D>(ops: DelegateOps<D>, initial: D, p: StartParams, host: Host, env: LaunchEnv,
                                       ctx: Context<D>, port: Int32)
    requires Start(ops, initial, p, host, env, ctx).outcome.Published?
    ensures ObserverKey(port) in Start(ops, initial, p, host, env, ctx).context <==>
              port == p.port || ObserverKey(port) in ctx
    ensures port == p.port ==>
              Start(ops, initial, p, host, env, ctx).context[ObserverKey(port)].processes == {env.child}
  {
    ObserverKeyInjective(p.port, port);
  }

  lemma SingletonEnumeration(s: seq<Proc>, c: Proc)
    requires Enumerates(s, {c})
    ensures s == [c]
  {
    DistinctCardinality(s);
    EnumeratesMembers(s, {c});
  }

  /** The observer `start` registers under a set-semantics delegate. */
  lemma RegisteredWithSetDestroyer(c: Proc)
    ensures Registered(SetDestroyer(), {}, c) == Observer({c}, {c})
  {
    var ops := SetDestroyer();
    assert ops.add({}, c) == ({} + {c}, true);
  }

  /** Reaping a single registered process whose one wait returns with the
      process unregistered: one destroy, then one wait. */
  lemma TraceOfOne(c: Proc, snapshot: seq<Proc>, waits: seq<WaitOutcome>, trace: seq<StopEvent>,
                   remaining: set<Proc>, observer: Observer<set<Proc>>)
    requires Enumerates(snapshot, {c})
    requires |waits| >= 1 && AllReturn(waits)
    requires Reaping(SetDestroyer(), Observer({c}, {c}), snapshot, waits, trace, 1, remaining, observer)
    ensures trace == [Destroyed(c), Waited(c, Returned(true))]
  {
    SingletonEnumeration(snapshot, c);
    assert trace[1].proc in {c};
  }

  /** ... and the observer is empty afterwards. */
  lemma EmptyAfterOne(c: Proc, trace: seq<StopEvent>, observer: Observer<set<Proc>>)
    requires trace == [Destroyed(c), Waited(c, Returned(true))]
    requires observer == Replay(SetDestroyer(), Observer({c}, {c}), Unregistrations(trace))
    ensures Size(SetDestroyer(), observer) == 0
  {
    var ops := SetDestroyer();
    var start := Observer({c}, {c});
    assert trace[..1] == [Destroyed(c)];
    assert Unregistrations(trace[..1]) == [] by {
      NoWaitsYet(trace[..1]);
    }
    assert Unregistrations(trace) == [RemoveCall(c)];
    assert {c} - {c} == {};
    assert ops.remove({c}, c) == ({}, true);
    assert Remove(ops, start, c).observer == Observer({}, {});
    assert observer == Replay(ops, Observer({}, {}), []);
  }

  /** A successful start followed by a stop on the same port, with a
      delegate of set semantics and every wait returning: the child is
      destroyed, then awaited once, and the entry is gone while every other
      entry is as before the start. */
  method StartThenStop(p: StartParams, host: Host, env: LaunchEnv, ctx: Context<set<Proc>>, waits: seq<WaitOutcome>)
    returns (started: StartRun<set<Proc>>, stopped: StopRun<set<Proc>>)
    requires Start(SetDestroyer(), {}, p, host, env, ctx).outcome.Published?
    requires |waits| >= 1 && AllReturn(waits)
    ensures started.outcome == Published(ObserverKey(p.port))
    ensures stopped.status == Stopped
    ensures stopped.trace == [Destroyed(env.child), Waited(env.child, Returned(true))]
    ensures ObserverKey(p.port) !in stopped.context
    ensures forall k :: k != ObserverKey(p.port) ==> (k in stopped.context <==> k in ctx)
    ensures forall k :: k != ObserverKey(p.port) && k in ctx ==> stopped.context[k] == ctx[k]
  {
    started := Start(SetDestroyer(), {}, p, host, env, ctx);
    RegisteredWithSetDestroyer(env.child);
    assert started.context[ObserverKey(p.port)] == Observer({env.child}, {env.child});
    stopped := Stop(SetDestroyer(), started.context, p.port, waits);
    TraceOfOne(env.child, stopped.snapshot, waits, stopped.trace, stopped.remaining, stopped.observer.value);
    EmptyAfterOne(env.child, stopped.trace, stopped.observer.value);
  }
}

=== FILE: plugin_context.dfy ===
/** The build's plugin context as far as the two goals use it: a map from
    string keys to process observers, where the key for a port is the
    observer class's name, a colon and the port in decimal. */
module PluginContext {
  import opened Common
  import Decimal
  import opened ProcessObserver

  /** `ProcessObserver.class.getName()`. */
  const ObserverClassName: string := "com.github.stephenc.mongodb.maven.ProcessObserver"

  /** The part of every observer key that precedes the port. */
  const KeyPrefix: string := ObserverClassName + ":"

  /** The context entries the goals read and write. */
  type Context<D> = map<string, Observer<D>>

  /** The key both goals compute for a port. */
  function ObserverKey(port: Int32): (key: string)
    ensures |key| > |KeyPrefix| && key[..|KeyPrefix|] == KeyPrefix
  {
    KeyPrefix + Decimal.IntToString(port)
  }

  /** Recovers the port from an observer key; `None` for any other string. */
  function ParseObserverKey(key: string): Option<int>
  {
    if |key| > |KeyPrefix| && key[..|KeyPrefix|] == KeyPrefix then Decimal.ParseInt(key[|KeyPrefix|..])
    else None
  }

  /** Every observer key names the port it was built from. */
  lemma ObserverKeyRoundTrip(port: Int32)
    ensures ParseObserverKey(ObserverKey(port)) == Some(port)
  {
    var key := ObserverKey(port);
    assert key[|KeyPrefix|..] == Decimal.IntToString(port);
    Decimal.ParseIntToString(port);
  }

  /** Two ports share a key only when they are the same port, so a goal
      working on one port never reads or deletes another port's entry. */
  lemma ObserverKeyInjective(p: Int32, q: Int32)
    ensures ObserverKey(p) == ObserverKey(q) <==> p == q
  {
    if ObserverKey(p) == ObserverKey(q) {
      ObserverKeyRoundTrip(p);
      ObserverKeyRoundTrip(q);
    }
  }
}

=== FILE: process_observer.dfy ===
/** The process registry kept by the start goal: a local set of child
    processes plus a delegate destroyer (the shutdown-hook destroyer) to
    which every `add` and `remove` is forwarded.

    The observer is a value: each call returns the observer as it is after
    the call, so a snapshot taken by `Iterator` can never be disturbed by a
    later call. */
module ProcessObserver {
  import opened Common

  /** The delegate destroyer, known only through its three operations over
      an abstract state `D`: `add` and `remove` return the new state and the
      boolean the delegate answers, `size` its count. */
  datatype DelegateOps<!D> = DelegateOps(
    add: (D, Proc) -> (D, bool),
    remove: (D, Proc) -> (D, bool),
    size: D -> int)

  /** The local (synchronised) set and the delegate's state. */
  datatype Observer<D> = Observer(processes: set<Proc>, delegate: D)

  /** The observer after an `add` or `remove`, and the call's return value. */
  datatype Change<D> = Change(observer: Observer<D>, result: bool)

  /** A call made on the observer. */
  datatype Call = AddCall(proc: Proc) | RemoveCall(proc: Proc)

  /** `new ProcessObserver(delegate)`: nothing tracked locally yet. */
  function New<D>(delegate: D): (o: Observer<D>)
    ensures o.processes == {}
    ensures o.delegate == delegate
  {
    Observer({}, delegate)
  }

  /** `add(p)`: records `p` locally and answers whatever the delegate answers. */
  function Add<D>(ops: DelegateOps<D>, o: Observer<D>, p: Proc): (c: Change<D>)
    ensures p in c.observer.processes
    ensures forall q :: q != p ==> (q in c.observer.processes <==> q in o.processes)
    ensures p in o.processes ==> c.observer.processes == o.processes
    ensures c.observer.delegate == ops.add(o.delegate, p).0
    ensures c.result == ops.add(o.delegate, p).1
  {
    var (d, answer) := ops.add(o.delegate, p);
    Change(Observer(o.processes + {p}, d), answer)
  }

  /** `remove(p)`: drops `p` locally and answers whatever the delegate answers. */
  function Remove<D>(ops: DelegateOps<D>, o: Observer<D>, p: Proc): (c: Change<D>)
    ensures p !in c.observer.processes
    ensures forall q :: q != p ==> (q in c.observer.processes <==> q in o.processes)
    ensures p !in o.processes ==> c.observer.processes == o.processes
    ensures c.observer.delegate == ops.remove(o.delegate, p).0
    ensures c.result == ops.remove(o.delegate, p).1
  {
    var (d, answer) := ops.remove(o.delegate, p);
    Change(Observer(o.processes - {p}, d), answer)
  }

  /** `size()`: the delegate's count; the local set is not consulted. */
  function Size<D>(ops: DelegateOps<D>, o: Observer<D>): int
  {
    ops.size(o.delegate)
  }

  /** `iterator()`: walks a copy of the local set taken at call time. */
  method Iterator<D>(o: Observer<D>) returns (it: seq<Proc>)
    ensures Enumerates(it, o.processes)
  {
    it := ToSequence(o.processes);
  }

  /** Applies one call. */
  function Apply<D>(ops: DelegateOps<D>, o: Observer<D>, call: Call): Observer<D>
  {
    match call
    case AddCall(p) => Add(ops, o, p).observer
    case RemoveCall(p) => Remove(ops, o, p).observer
  }

  /** Applies a sequence of calls, first to last. */
  function Replay<D>(ops: DelegateOps<D>, o: Observer<D>, calls: seq<Call>): Observer<D>
    decreases |calls|
  {
    if |calls| == 0 then o else Replay(ops, Apply(ops, o, calls[0]), calls[1..])
  }

  /** The last call in `calls` that names `q`, if any. */
  function LastCallOn(calls: seq<Call>, q: Proc): Option<Call>
    decreases |calls|
  {
    if |calls| == 0 then None
    else if calls[|calls| - 1].proc == q then Some(calls[|calls| - 1])
    else LastCallOn(calls[..|calls| - 1], q)
  }

  lemma {:induction false} ReplaySnoc<D>(ops: DelegateOps<D>, o: Observer<D>, calls: seq<Call>, call: Call)
    ensures Replay(ops, o, calls + [call]) == Apply(ops, Replay(ops, o, calls), call)
    decreases |calls|
  {
    if |calls| > 0 {
      assert (calls + [call])[1..] == calls[1..] + [call];
      ReplaySnoc(ops, Apply(ops, o, calls[0]), calls[1..], call);
    }
  }

  /** Local membership after any sequence of calls is decided by the last
      call naming the process: present after an `add`, absent after a
      `remove`, and as before when no call names it. */
  lemma {:induction false} ReplayMembership<D>(ops: DelegateOps<D>, o: Observer<D>, calls: seq<Call>, q: Proc)
    ensures q in Replay(ops, o, calls).processes <==>
              match LastCallOn(calls, q)
              case None => q in o.processes
              case Some(c) => c.AddCall?
    decreases |calls|
  {
    if |calls| > 0 {
      var init, last := calls[..|calls| - 1], calls[|calls| - 1];
      assert calls == init + [last];
      ReplaySnoc(ops, o, init, last);
      ReplayMembership(ops, o, init, q);
    }
  }

  /** The delegate behaves as a set whose contents `view` extracts: `add`
      answers whether the process was new, `remove` whether it was present,
      `size` counts the contents. */
  ghost predicate SetSemantics<D(!new)>(ops: DelegateOps<D>, view: D -> set<Proc>)
  {
    && (forall d, p {:trigger ops.add(d, p)} ::
          view(ops.add(d, p).0) == view(d) + {p} && ops.add(d, p).1 == (p !in view(d)))
    && (forall d, p {:trigger ops.remove(d, p)} ::
          view(ops.remove(d, p).0) == view(d) - {p} && ops.remove(d, p).1 == (p in view(d)))
    && (forall d {:trigger ops.size(d)} :: ops.size(d) == |view(d)|)
  }

  /** The delegate holds exactly the locally tracked processes. */
  ghost predicate Mirrors<D>(view: D -> set<Proc>, o: Observer<D>)
  {
    view(o.delegate) == o.processes
  }

  lemma ApplyKeepsMirror<D(!new)>(ops: DelegateOps<D>, view: D -> set<Proc>, o: Observer<D>, call: Call)
    requires SetSemantics(ops, view)
    requires Mirrors(view, o)
    ensures Mirrors(view, Apply(ops, o, call))
  {
    match call
    case AddCall(p) => assert view(ops.add(o.delegate, p).0) == view(o.delegate) + {p};
    case RemoveCall(p) => assert view(ops.remove(o.delegate, p).0) == view(o.delegate) - {p};
  }

  /** With a set-like delegate that is changed only through the observer,
      local set and delegate stay equal, so `size()` is the local count. */
  lemma {:induction false} ReplayKeepsMirror<D(!new)>(ops: DelegateOps<D>, view: D -> set<Proc>, o: Observer<D>, calls: seq<Call>)
    requires SetSemantics(ops, view)
    requires Mirrors(view, o)
    ensures Mirrors(view, Replay(ops, o, calls))
    ensures Size(ops, Replay(ops, o, calls)) == |Replay(ops, o, calls).processes|
    decreases |calls|
  {
    if |calls| > 0 {
      ApplyKeepsMirror(ops, view, o, calls[0]);
      ReplayKeepsMirror(ops, view, Apply(ops, o, calls[0]), calls[1..]);
    } else {
      assert ops.size(o.delegate) == |view(o.delegate)|;
    }
  }

  /** Under the same hypotheses, `add` answers `true` exactly for a process
      not yet tracked, and `remove` exactly for one that is. */
  lemma AnswersUnderSetSemantics<D(!new)>(ops: DelegateOps<D>, view: D -> set<Proc>, o: Observer<D>, p: Proc)
    requires SetSemantics(ops, view)
    requires Mirrors(view, o)
    ensures Add(ops, o, p).result <==> p !in o.processes
    ensures Remove(ops, o, p).result <==> p in o.processes
  {
    assert ops.add(o.delegate, p).1 == (p !in view(o.delegate));
    assert ops.remove(o.delegate, p).1 == (p in view(o.delegate));
  }

  /** A delegate with plain set semantics. */
  function SetDestroyer(): DelegateOps<set<Proc>>
  {
    DelegateOps((d: set<Proc>, p: Proc) => (d + {p}, p !in d),
                (d: set<Proc>, p: Proc) => (d - {p}, p in d),
                (d: set<Proc>) => |d|)
  }

  lemma SetDestroyerHasSetSemantics()
    ensures SetSemantics(SetDestroyer(), (d: set<Proc>) => d)
  {
  }

  /** An observer created over an empty set-semantics destroyer reports, after
      any sequence of calls, the number of processes it tracks locally. */
  lemma SizeOverSetDestroyer(calls: seq<Call>)
    ensures var o := Replay(SetDestroyer(), New({}), calls);
            Size(SetDestroyer(), o) == |o.processes| && o.delegate == o.processes
  {
    SetDestroyerHasSetSemantics();
    ReplayKeepsMirror(SetDestroyer(), (d: set<Proc>) => d, New({}), calls);
  }

  /** A delegate that keeps a list and so may hold a process twice. */
  function ListDestroyer(): DelegateOps<seq<Proc>>
  {
    DelegateOps((d: seq<Proc>, p: Proc) => (d + [p], true),
                (d: seq<Proc>, p: Proc) => (RemoveFirst(d, p), p in d),
                (d: seq<Proc>) => |d|)
  }

  function RemoveFirst(d: seq<Proc>, p: Proc): seq<Proc>
    decreases |d|
  {
    if |d| == 0 then [] else if d[0] == p then d[1..] else [d[0]] + RemoveFirst(d[1..], p)
  }

  /** `size()` reports the delegate's count even where it differs from the
      local set: adding one process twice to an observer over a list-keeping
      delegate leaves one process locally but a count of two. */
  lemma SizeIsTheDelegatesCount(p: Proc)
    ensures var o := Replay(ListDestroyer(), New([]), [AddCall(p), AddCall(p)]);
            o.processes == {p} && Size(ListDestroyer(), o) == 2
  {
    var ops := ListDestroyer();
    var calls := [AddCall(p), AddCall(p)];
    assert ops.add([], p) == ([] + [p], true);
    assert [] + [p] == [p];
    assert ops.add([p], p) == ([p] + [p], true);
    assert [p] + [p] == [p, p];
    var o1 := Apply(ops, New([]), calls[0]);
    assert o1 == Observer({p}, [p]);
    var o2 := Apply(ops, o1, calls[1]);
    assert o2 == Observer({p}, [p, p]);
    assert Replay(ops, o2, calls[2..]) == o2;
    assert calls[1..][1..] == calls[2..];
  }
}

=== FILE: start_mongo.dfy ===
/** The `start` goal as a decision procedure. The network probes, the
    filesystem, the operating-system family, the clock and the child process
    are inputs; the result is the goal's outcome, the externally visible
    actions it took in order, and the plugin context it leaves behind. */
module StartMongo {
  import opened Common
  import Decimal
  import opened ProcessObserver
  import opened PluginContext

  /** How a connect-and-list-databases attempt on localhost ended. */
  datatype ProbeOutcome =
    | Listed(databases: seq<string>)    // connected and listed the databases
    | NetworkError                      // a network-level driver error: nothing answering
    | OtherMongoError(message: string)  // any other driver error: something answered
    | UnknownHost(message: string)      // the host name did not resolve

  /** The goal's configuration. */
  datatype StartParams = StartParams(
    skip: bool,
    installation: Option<string>,
    databaseRoot: string,
    port: Int32,
    verbose: bool,
    auth: bool)

  /** What the filesystem and the operating system answer. */
  datatype Host = Host(
    windows: bool,
    installationIsDirectory: bool,
    executableIsFile: bool,
    databaseRootIsFile: bool,
    databaseRootIsDirectory: bool,
    mkdirsSucceeds: bool,
    databaseRootAbsolutePath: string)

  /** The result handler's record of a finished child: the execution
      exception, if any, and the exit value. */
  datatype ExecResult = ExecResult(exception: Option<string>, exitValue: int)

  /** One turn of the readiness loop: whether the clock is past the deadline,
      whether the child has a result, and what a probe would answer. */
  datatype Poll = Poll(deadlinePassed: bool, childResult: Option<ExecResult>, probe: ProbeOutcome)

  /** Everything the goal observes from the launch on. The readiness loop
      reads `polls` in order; once they run out the clock is past the
      deadline. `finalResult` is the result handler's state when the loop
      has ended, and `child` the process the executor registers. */
  datatype LaunchEnv = LaunchEnv(
    preflight: ProbeOutcome,
    launchError: Option<string>,
    polls: seq<Poll>,
    finalResult: Option<ExecResult>,
    child: Proc)

  /** `installation/bin/<name>` or a bare name looked up on the path. */
  datatype Executable = Installed(installation: string, name: string) | OnPath(name: string)

  datatype CommandLine = CommandLine(executable: Executable, arguments: seq<string>)

  /** The externally visible steps, in the order the goal takes them. */
  datatype Action =
    | Probe
    | MakeDirs
    | Execute(command: CommandLine)
    | Sleep
    | Publish(key: string)

  datatype StartOutcome =
    | Skipped
    | AlreadyRunning(port: Int32, databases: Option<seq<string>>)
    | MissingExecutable(installation: string, executable: Executable)
    | DatabaseRootIsFile(path: string)
    | CannotCreateDatabaseRoot(path: string)
    | IoError(message: string)
    | ChildFailed(message: string)
    | ChildExited(command: CommandLine, exitValue: int)
    | Published(key: string)

  datatype StartRun<D> = StartRun(outcome: StartOutcome, actions: seq<Action>, context: Context<D>)

  /** The server binary's file name on the host's operating system. */
  function ExecutableName(windows: bool): string
  {
    if windows then "mongod.exe" else "mongod"
  }

  /** The pre-flight probe's verdict: `None` lets the goal go on; anything
      that answered on the port stops it. */
  function PreflightVerdict(port: Int32, probe: ProbeOutcome): (v: Option<StartOutcome>)
    ensures v.None? <==> probe.NetworkError? || probe.UnknownHost?
    ensures v.Some? ==> v.value.AlreadyRunning? && v.value.port == port
    ensures v.Some? ==> (v.value.databases.Some? <==> probe.Listed?)
    ensures probe.Listed? ==> v == Some(AlreadyRunning(port, Some(probe.databases)))
  {
    match probe
    case Listed(databases) => Some(AlreadyRunning(port, Some(databases)))
    case OtherMongoError(_) => Some(AlreadyRunning(port, None))
    case NetworkError => None
    case UnknownHost(_) => None
  }

  /** Chooses the executable: the installation's `bin` directory when the
      installation is a directory, the bare name otherwise. */
  function ResolveExecutable(installation: Option<string>, host: Host): (r: Result<Executable, StartOutcome>)
    ensures r.Failure? <==> installation.Some? && host.installationIsDirectory && !host.executableIsFile
    ensures r.Failure? ==>
              r.error == MissingExecutable(installation.value, Installed(installation.value, ExecutableName(host.windows)))
    ensures r.Success? ==> r.value.name == ExecutableName(host.windows)
    ensures r.Success? ==> (r.value.Installed? <==> installation.Some? && host.installationIsDirectory)
    ensures r.Success? && r.value.Installed? ==> r.value.installation == installation.value
  {
    var name := ExecutableName(host.windows);
    if installation.Some? && host.installationIsDirectory then
      if host.executableIsFile then Success(Installed(installation.value, name))
      else Failure(MissingExecutable(installation.value, Installed(installation.value, name)))
    else Success(OnPath(name))
  }

  /** The database-root check: its error, if any, and whether it asked for
      the directories to be created. */
  datatype RootCheck = RootCheck(error: Option<StartOutcome>, madeDirs: bool)

  function CheckDatabaseRoot(path: string, host: Host): (c: RootCheck)
    ensures c.madeDirs <==> !host.databaseRootIsFile && !host.databaseRootIsDirectory
    ensures c.error.Some? <==> host.databaseRootIsFile || (c.madeDirs && !host.mkdirsSucceeds)
    ensures host.databaseRootIsFile ==> c.error == Some(DatabaseRootIsFile(path))
    ensures c.error.Some? && !host.databaseRootIsFile ==> c.error == Some(CannotCreateDatabaseRoot(path))
  {
    if host.databaseRootIsFile then RootCheck(Some(DatabaseRootIsFile(path)), false)
    else if host.databaseRootIsDirectory then RootCheck(None, false)
    else if host.mkdirsSucceeds then RootCheck(None, true)
    else RootCheck(Some(CannotCreateDatabaseRoot(path)), true)
  }

  /** The arguments passed to the server binary. */
  function Arguments(verbose: bool, auth: bool, port: Int32, databasePath: string): (args: seq<string>)
    ensures |args| == if verbose then 5 else 6
    ensures ParseArguments(args) == Some(Settings(!verbose, auth, port, databasePath))
  {
    ArgumentsRoundTrip(verbose, auth, port, databasePath);
    ArgumentVector(verbose, auth, port, databasePath)
  }

  function ArgumentVector(verbose: bool, auth: bool, port: int, databasePath: string): seq<string>
  {
    (if verbose then [] else ["--quiet"])
    + [if auth then "--auth" else "--noauth", "--port", Decimal.IntToString(port), "--dbpath", databasePath]
  }

  /** The settings an argument vector asks the server for. */
  datatype Settings = Settings(quiet: bool, auth: bool, port: int, databasePath: string)

  /** Reads an argument vector of the shape `Arguments` builds; `None` for
      anything else. */
  function ParseArguments(args: seq<string>): Option<Settings>
  {
    if |args| == 6 && args[0] == "--quiet" then ParseMandatory(true, args[1..])
    else if |args| == 5 then ParseMandatory(false, args)
    else None
  }

  function ParseMandatory(quiet: bool, args: seq<string>): Option<Settings>
    requires |args| == 5
  {
    if (args[0] == "--auth" || args[0] == "--noauth") && args[1] == "--port" && args[3] == "--dbpath" then
      match Decimal.ParseInt(args[2])
      case Some(port) => Some(Settings(quiet, args[0] == "--auth", port, args[4]))
      case None => None
    else None
  }

  /** The argument vector carries every setting and nothing can be misread:
      reading it back yields exactly the configured quiet, auth, port and
      database path. */
  lemma ArgumentsRoundTrip(verbose: bool, auth: bool, port: int, databasePath: string)
    ensures ParseArguments(ArgumentVector(verbose, auth, port, databasePath))
            == Some(Settings(!verbose, auth, port, databasePath))
  {
    var args := ArgumentVector(verbose, auth, port, databasePath);
    Decimal.ParseIntToString(port);
    if !verbose {
      assert args[1..] == [if auth then "--auth" else "--noauth", "--port", Decimal.IntToString(port), "--dbpath", databasePath];
    }
  }

  /** The argument vector is the only one that reads back as its settings:
      in particular the port is spelled exactly as `Integer.toString` spells
      it. */
  lemma ArgumentsUnique(verbose: bool, auth: bool, port: Int32, databasePath: string, args: seq<string>)
    ensures ParseArguments(args) == Some(Settings(!verbose, auth, port, databasePath))
            <==> args == Arguments(verbose, auth, port, databasePath)
  {
    if ParseArguments(args) == Some(Settings(!verbose, auth, port, databasePath)) {
      if |args| == 6 {
        MandatoryUnique(true, auth, port, databasePath, args[1..]);
        assert args == [args[0]] + args[1..];
      } else {
        MandatoryUnique(false, auth, port, databasePath, args);
      }
    }
  }

  lemma MandatoryUnique(quiet: bool, auth: bool, port: int, databasePath: string, m: seq<string>)
    requires |m| == 5 && ParseMandatory(quiet, m) == Some(Settings(quiet, auth, port, databasePath))
    ensures m == [if auth then "--auth" else "--noauth", "--port", Decimal.IntToString(port), "--dbpath", databasePath]
  {
    Decimal.ToStringParseInt(m[2]);
  }

  /** How the readiness loop ended. */
  datatype LoopExit =
    | DeadlinePassed
    | ChildHasResult
    | Ready(databases: Option<seq<string>>)
    | ProbeThrew(message: string)

  /** The loop's exit and how many times it slept and retried. */
  datatype LoopRun = LoopRun(exit: LoopExit, retries: nat)

  /** A poll after which the loop sleeps and goes round again. */
  predicate Retries(s: Poll)
  {
    !s.deadlinePassed && s.childResult.None? && s.probe.NetworkError?
  }

  /** The exit carries what the poll that ended the loop found: the
      unresolved host's message, or the listed databases (none for any other
      driver error). */
  ghost predicate ExitCarries(s: Poll, exit: LoopExit)
  {
    && (exit.ProbeThrew? ==> s.probe.UnknownHost? && exit.message == s.probe.message)
    && (exit.Ready? ==> exit.databases == (if s.probe.Listed? then Some(s.probe.databases) else None))
  }

  /** The readiness loop, one poll per turn: it runs only while the deadline
      has not passed and the child has no result; a network error sleeps and
      retries, a listing or any other driver error ends the loop, and an
      unresolved host escapes it. */
  function Readiness(polls: seq<Poll>): (r: LoopRun)
    ensures r.retries <= |polls|
    ensures forall i :: 0 <= i < r.retries ==> Retries(polls[i])
    ensures r.retries == |polls| ==> r.exit == DeadlinePassed
    ensures r.retries < |polls| ==> !Retries(polls[r.retries])
    ensures r.retries < |polls| ==>
              var s := polls[r.retries];
              && (r.exit == DeadlinePassed <==> s.deadlinePassed)
              && (r.exit == ChildHasResult <==> !s.deadlinePassed && s.childResult.Some?)
              && (r.exit.Ready? ==> !s.deadlinePassed && s.childResult.None?
                                    && (s.probe.Listed? || s.probe.OtherMongoError?))
              && (r.exit.ProbeThrew? <==> !s.deadlinePassed && s.childResult.None? && s.probe.UnknownHost?)
    ensures r.retries < |polls| ==> ExitCarries(polls[r.retries], r.exit)
    decreases |polls|
  {
    if |polls| == 0 || polls[0].deadlinePassed then LoopRun(DeadlinePassed, 0)
    else if polls[0].childResult.Some? then LoopRun(ChildHasResult, 0)
    else match polls[0].probe
      case NetworkError =>
        var rest := Readiness(polls[1..]);
        LoopRun(rest.exit, rest.retries + 1)
      case Listed(databases) => LoopRun(Ready(Some(databases)), 0)
      case OtherMongoError(_) => LoopRun(Ready(None), 0)
      case UnknownHost(message) => LoopRun(ProbeThrew(message), 0)
  }

  /** `n` rounds of probe-then-sleep. */
  function Retrying(n: nat): (a: seq<Action>)
    ensures |a| == 2 * n
    ensures forall i :: 0 <= i < |a| ==> a[i] == (if i % 2 == 0 then Probe else Sleep)
  {
    if n == 0 then [] else Retrying(n - 1) + [Probe, Sleep]
  }

  /** The actions of a readiness loop run: a probe and a sleep per retry,
      then one more probe when the last probe ended the loop. */
  function LoopActions(run: LoopRun): (a: seq<Action>)
    ensures |a| == 2 * run.retries + (if run.exit.Ready? || run.exit.ProbeThrew? then 1 else 0)
    ensures a[..2 * run.retries] == Retrying(run.retries)
    ensures |a| > 2 * run.retries ==> a[2 * run.retries] == Probe
    ensures forall i :: 0 <= i < |a| ==> a[i] == Probe || a[i] == Sleep
  {
    Retrying(run.retries) + (if run.exit.Ready? || run.exit.ProbeThrew? then [Probe] else [])
  }

  /** The delegate state `after` is `before` with `p` added to it. */
  ghost predicate AddedTo<D>(ops: DelegateOps<D>, before: D, p: Proc, after: D)
  {
    after == ops.add(before, p).0
  }

  /** The observer the executor has registered the child with. */
  function Registered<D>(ops: DelegateOps<D>, initial: D, child: Proc): (o: Observer<D>)
    ensures o.processes == {child}
    ensures AddedTo(ops, initial, child, o.delegate)
  {
    Add(ops, New(initial), child).observer
  }

  /** The checks that precede the launch all pass. */
  predicate ChecksPass(p: StartParams, host: Host, env: LaunchEnv)
  {
    && !p.skip
    && PreflightVerdict(p.port, env.preflight).None?
    && ResolveExecutable(p.installation, host).Success?
    && CheckDatabaseRoot(p.databaseRoot, host).error.None?
  }

  /** Nothing escaped the launch or the readiness loop as an I/O error. */
  predicate NoIoError(env: LaunchEnv)
  {
    env.launchError.None? && !Readiness(env.polls).exit.ProbeThrew?
  }

  /** Some action executes a command. */
  predicate Launched(actions: seq<Action>)
  {
    exists i :: 0 <= i < |actions| && actions[i].Execute?
  }

  /** The execution of `command` followed by the readiness loop's actions. */
  function Launch(command: CommandLine, run: LoopRun): (a: seq<Action>)
    ensures |a| > 0 && a[0] == Execute(command)
    ensures forall j :: 0 < j < |a| ==> a[j] == Probe || a[j] == Sleep
  {
    [Execute(command)] + LoopActions(run)
  }

  /** The goal from the execution of `command` on: the readiness wait, the
      check of the child's result and the publication of the observer. */
  function Supervise<D>(ops: DelegateOps<D>, initial: D, port: Int32, command: CommandLine, env: LaunchEnv, ctx: Context<D>): (r: StartRun<D>)
    ensures |r.actions| > 0 && r.actions[0] == Execute(command)
    ensures forall j :: 0 < j < |r.actions| ==> !r.actions[j].Execute?
    ensures r.outcome.IoError? || r.outcome.ChildFailed? || r.outcome.ChildExited? || r.outcome.Published?
    ensures r.outcome.Published? <==> NoIoError(env) && env.finalResult.None?
    ensures r.outcome.Published? ==>
              && r.outcome.key == ObserverKey(port)
              && r.context == ctx[r.outcome.key := Registered(ops, initial, env.child)]
              && r.actions[|r.actions| - 1] == Publish(r.outcome.key)
    ensures !r.outcome.Published? ==> r.context == ctx && forall a :: a in r.actions ==> !a.Publish?
    ensures NoIoError(env) && env.finalResult.Some? ==>
              if env.finalResult.value.exception.Some?
              then r.outcome == ChildFailed(env.finalResult.value.exception.value)
              else r.outcome == ChildExited(command, env.finalResult.value.exitValue)
    // a launch that throws, or an unresolved host in the loop, ends the goal
    // with the exception's message
    ensures env.launchError.Some? ==> r == StartRun(IoError(env.launchError.value), [Execute(command)], ctx)
    ensures env.launchError.None? && Readiness(env.polls).exit.ProbeThrew? ==>
              r.outcome == IoError(Readiness(env.polls).exit.message)
    // otherwise the launch is followed by the readiness loop's probes and
    // sleeps, and by the publication when there is one
    ensures env.launchError.None? ==>
              r.actions == Launch(command, Readiness(env.polls)) + (if r.outcome.Published? then [Publish(ObserverKey(port))] else [])
  {
    if env.launchError.Some? then StartRun(IoError(env.launchError.value), [Execute(command)], ctx)
    else
      var run := Readiness(env.polls);
      var waited := Launch(command, run);
      if run.exit.ProbeThrew? then StartRun(IoError(run.exit.message), waited, ctx)
      else
        match env.finalResult
        case Some(result) =>
          if result.exception.Some? then StartRun(ChildFailed(result.exception.value), waited, ctx)
          else StartRun(ChildExited(command, result.exitValue), waited, ctx)
        case None =>
          var key := ObserverKey(port);
          StartRun(Published(key), waited + [Publish(key)], ctx[key := Registered(ops, initial, env.child)])
  }

  /** The outcome of the checks made before the launch: go on with an
      executable, or halt with an error; either way the actions taken. */
  datatype Checked =
    | Proceed(executable: Executable, actions: seq<Action>)
    | Halt(outcome: StartOutcome, actions: seq<Action>)

  /** The pre-flight probe, the choice of executable and the database-root
      check, in that order; each failure halts before the next check. */
  function PreLaunch(p: StartParams, host: Host, env: LaunchEnv): (c: Checked)
    requires !p.skip
    ensures |c.actions| > 0 && c.actions[0] == Probe
    ensures forall i :: 0 <= i < |c.actions| ==> c.actions[i] == Probe || c.actions[i] == MakeDirs
    ensures c.Proceed? <==> ChecksPass(p, host, env)
    ensures c.Proceed? ==> c.executable == ResolveExecutable(p.installation, host).value
    ensures c.Halt? ==> (c.outcome.AlreadyRunning? <==> PreflightVerdict(p.port, env.preflight).Some?)
    ensures c.Halt? && c.outcome.AlreadyRunning? ==> c.actions == [Probe]
    ensures PreflightVerdict(p.port, env.preflight).Some? ==> c == Halt(PreflightVerdict(p.port, env.preflight).value, [Probe])
    ensures PreflightVerdict(p.port, env.preflight).None? && ResolveExecutable(p.installation, host).Success? ==>
              c.actions == [Probe] + (if CheckDatabaseRoot(p.databaseRoot, host).madeDirs then [MakeDirs] else [])
    ensures PreflightVerdict(p.port, env.preflight).None? && ResolveExecutable(p.installation, host).Failure? ==>
              c == Halt(ResolveExecutable(p.installation, host).error, [Probe])
    ensures PreflightVerdict(p.port, env.preflight).None? && ResolveExecutable(p.installation, host).Success?
            && CheckDatabaseRoot(p.databaseRoot, host).error.Some? ==>
              c.Halt? && c.outcome == CheckDatabaseRoot(p.databaseRoot, host).error.value
  {
    match PreflightVerdict(p.port, env.preflight)
    case Some(busy) => Halt(busy, [Probe])
    case None =>
      match ResolveExecutable(p.installation, host)
      case Failure(missing) => Halt(missing, [Probe])
      case Success(exe) =>
        var root := CheckDatabaseRoot(p.databaseRoot, host);
        var checks := [Probe] + (if root.madeDirs then [MakeDirs] else []);
        if root.error.Some? then Halt(root.error.value, checks) else Proceed(exe, checks)
  }

  /** The command line the goal launches once the executable is resolved. */
  function ServerCommand(p: StartParams, host: Host): CommandLine
    requires ResolveExecutable(p.installation, host).Success?
  {
    CommandLine(ResolveExecutable(p.installation, host).value,
                Arguments(p.verbose, p.auth, p.port, host.databaseRootAbsolutePath))
  }

  /** The whole `start` goal. `ops` and `initial` are the delegate
      destroyer's operations and its state when it is created. */
  function Start<D>(ops: DelegateOps<D>, initial: D, p: StartParams, host: Host, env: LaunchEnv, ctx: Context<D>): (r: StartRun<D>)
    // skipping does nothing at all
    ensures p.skip ==> r.outcome == Skipped && r.actions == [] && r.context == ctx
    ensures r.outcome == Skipped <==> p.skip
    // otherwise the pre-flight probe is the first thing done, and a busy
    // port stops the goal right there
    ensures !p.skip ==> |r.actions| > 0 && r.actions[0] == Probe
    ensures r.outcome.AlreadyRunning? <==> !p.skip && PreflightVerdict(p.port, env.preflight).Some?
    ensures r.outcome.AlreadyRunning? ==> r.actions == [Probe]
    // a failed check ends the goal with that check's outcome, after the
    // checks made so far
    ensures !p.skip && PreLaunch(p, host, env).Halt? ==>
              r.outcome == PreLaunch(p, host, env).outcome && r.actions == PreLaunch(p, host, env).actions
    // an exception from the launch or the loop ends the goal with its message
    ensures ChecksPass(p, host, env) && env.launchError.Some? ==> r.outcome == IoError(env.launchError.value)
    ensures ChecksPass(p, host, env) && env.launchError.None? && Readiness(env.polls).exit.ProbeThrew? ==>
              r.outcome == IoError(Readiness(env.polls).exit.message)
    // the observer is published exactly when nothing escaped and the child
    // has no result after the loop, and only then does the context change
    ensures r.outcome.Published? <==> ChecksPass(p, host, env) && NoIoError(env) && env.finalResult.None?
    ensures r.outcome.Published? ==>
              && r.outcome.key == ObserverKey(p.port)
              && r.context == ctx[r.outcome.key := Registered(ops, initial, env.child)]
              && r.actions[|r.actions| - 1] == Publish(r.outcome.key)
    ensures !r.outcome.Published? ==> r.context == ctx && forall a :: a in r.actions ==> !a.Publish?
    // a child with a result after the loop fails the goal with its
    // exception's message, or else with its exit value
    ensures ChecksPass(p, host, env) && NoIoError(env) && env.finalResult.Some? ==>
              if env.finalResult.value.exception.Some?
              then r.outcome == ChildFailed(env.finalResult.value.exception.value)
              else r.outcome == ChildExited(ServerCommand(p, host), env.finalResult.value.exitValue)
    // once the checks pass, the goal's actions are the checks' followed by
    // those of the supervised launch of the server command
    ensures ChecksPass(p, host, env) ==>
              r.actions == PreLaunch(p, host, env).actions + Supervise(ops, initial, p.port, ServerCommand(p, host), env, ctx).actions
  {
    if p.skip then StartRun(Skipped, [], ctx)
    else
      match PreLaunch(p, host, env)
      case Halt(failure, checks) => StartRun(failure, checks, ctx)
      case Proceed(_, checks) =>
        var rest := Supervise(ops, initial, p.port, ServerCommand(p, host), env, ctx);
        StartRun(rest.outcome, checks + rest.actions, rest.context)
  }

  /** A command is executed exactly when every check passed, only after the
      checks, exactly once, and with the configured argument vector. */
  lemma StartLaunches<D>(ops: DelegateOps<D>, initial: D, p: StartParams, host: Host, env: LaunchEnv, ctx: Context<D>)
    ensures var r := Start(ops, initial, p, host, env, ctx);
            && (Launched(r.actions) <==> ChecksPass(p, host, env))
            && forall i :: 0 <= i < |r.actions| && r.actions[i].Execute? ==>
                 && (forall j :: 0 <= j < i ==> r.actions[j] == Probe || r.actions[j] == MakeDirs)
                 && (forall j :: i < j < |r.actions| ==> !r.actions[j].Execute?)
                 && ResolveExecutable(p.installation, host).Success?
                 && r.actions[i] == Execute(ServerCommand(p, host))
  {
    var r := Start(ops, initial, p, host, env, ctx);
    if !p.skip {
      match PreLaunch(p, host, env)
      case Halt(_, checks) =>
        assert !Launched(checks);
      case Proceed(_, checks) =>
        var rest := Supervise(ops, initial, p.port, ServerCommand(p, host), env, ctx);
        ExecuteOnce(checks, rest.actions, ServerCommand(p, host));
    }
  }

  /** Checks followed by a supervised launch of `command` execute `command`
      once, after every check. */
  lemma ExecuteOnce(checks: seq<Action>, rest: seq<Action>, command: CommandLine)
    requires forall i :: 0 <= i < |checks| ==> checks[i] == Probe || checks[i] == MakeDirs
    requires |rest| > 0 && rest[0] == Execute(command)
    requires forall j :: 0 < j < |rest| ==> !rest[j].Execute?
    ensures Launched(checks + rest)
    ensures forall i :: 0 <= i < |checks + rest| && (checks + rest)[i].Execute? ==>
              && (forall j :: 0 <= j < i ==> (checks + rest)[j] == Probe || (checks + rest)[j] == MakeDirs)
              && (forall j :: i < j < |checks + rest| ==> !(checks + rest)[j].Execute?)
              && (checks + rest)[i] == Execute(command)
  {
    var a := checks + rest;
    assert a[|checks|].Execute?;
    assert forall i :: 0 <= i < |a| && a[i].Execute? ==> i == |checks|;
  }

  /** The readiness timeout is not an error: when the deadline passes before
      the server answers and the child is still running, the goal publishes
      the observer and succeeds, leaving the child running and tracked. */
  lemma TimeoutStillPublishes<D>(ops: DelegateOps<D>, initial: D, p: StartParams, host: Host, env: LaunchEnv, ctx: Context<D>)
    requires ChecksPass(p, host, env)
    requires env.launchError.None?
    requires forall i :: 0 <= i < |env.polls| ==> Retries(env.polls[i]) || env.polls[i].deadlinePassed
    requires env.finalResult.None?
    ensures Readiness(env.polls).exit == DeadlinePassed
    ensures Start(ops, initial, p, host, env, ctx).outcome == Published(ObserverKey(p.port))
  {
  }

  /** The result handler never loses a result: a readiness loop that ended
      because the child had a result sees one afterwards too. */
  predicate ResultPersists(env: LaunchEnv)
  {
    Readiness(env.polls).exit == ChildHasResult ==> env.finalResult.Some?
  }

  /** With a result handler that keeps its result, a loop ended by the
      child's result always fails the goal, and nothing is published. */
  lemma ChildResultFails<D>(ops: DelegateOps<D>, initial: D, p: StartParams, host: Host, env: LaunchEnv, ctx: Context<D>)
    requires ChecksPass(p, host, env) && env.launchError.None?
    requires ResultPersists(env)
    requires Readiness(env.polls).exit == ChildHasResult
    ensures var r := Start(ops, initial, p, host, env, ctx);
            (r.outcome.ChildFailed? || r.outcome.ChildExited?) && r.context == ctx
  {
  }
}

=== FILE: stop_mongo.dfy ===
/** The `stop` goal: finds the observer the `start` goal published for the
    port, asks every process it tracks to terminate, waits for each of them,
    and drops the context entry once the observer is empty.

    A process's `waitFor` is an oracle: `waits` lists what successive calls
    do, either return (the process has exited) or be interrupted. When a
    call returns, the executor's exit path may already have unregistered
    the process from the observer; the oracle says whether it has. When the
    oracle runs out while processes remain, the goal is blocked for good:
    it never returns. */
module StopMongo {
  import opened Common
  import opened ProcessObserver
  import opened PluginContext

  datatype WaitOutcome = Interrupted | Returned(unregistered: bool)

  /** What the goal does to a process, in order. */
  datatype StopEvent = Destroyed(proc: Proc) | Waited(proc: Proc, outcome: WaitOutcome)

  datatype StopStatus = NothingToStop | Stopped | Blocked

  /** The goal's status, the snapshot it iterated, its events, the processes
      still awaited, how many waits it used, the observer as it last saw it
      and the resulting context. */
  datatype StopRun<D> = StopRun(
    status: StopStatus,
    snapshot: seq<Proc>,
    trace: seq<StopEvent>,
    remaining: set<Proc>,
    passes: seq<seq<Proc>>,
    waitsUsed: nat,
    observer: Option<Observer<D>>,
    context: Context<D>)

  /** The processes whose wait returned. */
  function ReturnedIn(trace: seq<StopEvent>): set<Proc>
    decreases |trace|
  {
    if |trace| == 0 then {}
    else
      var e := trace[|trace| - 1];
      ReturnedIn(trace[..|trace| - 1]) + (if e.Waited? && e.outcome.Returned? then {e.proc} else {})
  }

  lemma {:induction false} ReturnedInContains(trace: seq<StopEvent>, a: nat)
    requires a < |trace| && trace[a].Waited? && trace[a].outcome.Returned?
    ensures trace[a].proc in ReturnedIn(trace)
    decreases |trace|
  {
    if a < |trace| - 1 {
      ReturnedInContains(trace[..|trace| - 1], a);
    }
  }

  /** The exit-triggered unregistrations the trace reports, in order. */
  function Unregistrations(trace: seq<StopEvent>): seq<Call>
    decreases |trace|
  {
    if |trace| == 0 then []
    else
      var e := trace[|trace| - 1];
      Unregistrations(trace[..|trace| - 1])
      + (if e.Waited? && e.outcome == Returned(true) then [RemoveCall(e.proc)] else [])
  }

  /** Every wait that returns is answered with an unregistration. */
  predicate AllReturn(waits: seq<WaitOutcome>)
  {
    forall i :: 0 <= i < |waits| ==> waits[i] == Returned(true)
  }

  /** No process is waited for again once its wait has returned. */
  predicate NoWaitAfterReturn(trace: seq<StopEvent>, from: nat)
  {
    forall a, b :: from <= a < b < |trace| && trace[a].Waited? && trace[a].outcome.Returned? ==>
      trace[b].proc != trace[a].proc
  }

  /** The state of the reaping loops: `trace` starts with one destroy per
      snapshot process, followed by one event per wait used so far, each on
      a snapshot process and as the oracle says; the processes still awaited
      are those whose wait has not returned; the observer has seen exactly
      the reported unregistrations. */
  ghost predicate Reaping<D>(ops: DelegateOps<D>, start: Observer<D>, snapshot: seq<Proc>, waits: seq<WaitOutcome>,
                             trace: seq<StopEvent>, used: nat, remaining: set<Proc>, observer: Observer<D>)
  {
    var n := |snapshot|;
    && |trace| == n + used && used <= |waits|
    && (forall k :: 0 <= k < n ==> trace[k] == Destroyed(snapshot[k]))
    && (forall k :: n <= k < |trace| ==>
          trace[k].Waited? && trace[k].proc in start.processes && trace[k].outcome == waits[k - n])
    && remaining == start.processes - ReturnedIn(trace)
    && NoWaitAfterReturn(trace, n)
    && observer == Replay(ops, start, Unregistrations(trace))
    && (AllReturn(waits) ==> |remaining| + used == |start.processes|)
  }

  /** The first loop: destroys every snapshot process, in snapshot order,
      and collects them as the processes to wait for. */
  method DestroyAll(snapshot: seq<Proc>) returns (trace: seq<StopEvent>, remaining: set<Proc>)
    ensures |trace| == |snapshot|
    ensures forall k :: 0 <= k < |snapshot| ==> trace[k] == Destroyed(snapshot[k])
    ensures forall q :: q in remaining <==> q in snapshot
  {
    trace := [];
    remaining := {};
    var i := 0;
    while i < |snapshot|
      invariant 0 <= i <= |snapshot|
      invariant |trace| == i
      invariant forall k :: 0 <= k < i ==> trace[k] == Destroyed(snapshot[k])
      invariant remaining == set k | 0 <= k < i :: snapshot[k]
    {
      trace := trace + [Destroyed(snapshot[i])];
      remaining := remaining + {snapshot[i]};
      i := i + 1;
    }
  }

  /** The observer after one more wait: unchanged unless the wait returned
      with the process unregistered, and then that process is removed. */
  lemma ObserverStep<D>(ops: DelegateOps<D>, start: Observer<D>, trace: seq<StopEvent>, observer: Observer<D>,
                        p: Proc, w: WaitOutcome)
    requires observer == Replay(ops, start, Unregistrations(trace))
    ensures (if w == Returned(true) then Remove(ops, observer, p).observer else observer)
            == Replay(ops, start, Unregistrations(trace + [Waited(p, w)]))
  {
    var t := trace + [Waited(p, w)];
    assert t[..|t| - 1] == trace;
    var u := Unregistrations(trace);
    if w == Returned(true) {
      assert Unregistrations(t) == u + [RemoveCall(p)];
      ReplaySnoc(ops, start, u, RemoveCall(p));
    } else {
      assert Unregistrations(t) == u;
    }
  }

  /** One wait on an awaited process keeps the reaping state. */
  lemma WaitStep<D>(ops: DelegateOps<D>, start: Observer<D>, snapshot: seq<Proc>, waits: seq<WaitOutcome>,
                    trace: seq<StopEvent>, used: nat, remaining: set<Proc>, observer: Observer<D>, p: Proc)
    requires Reaping(ops, start, snapshot, waits, trace, used, remaining, observer)
    requires used < |waits| && p in remaining
    ensures var w := waits[used];
            Reaping(ops, start, snapshot, waits, trace + [Waited(p, w)], used + 1,
                    if w.Returned? then remaining - {p} else remaining,
                    if w == Returned(true) then Remove(ops, observer, p).observer else observer)
  {
    var w := waits[used];
    var t := trace + [Waited(p, w)];
    var rem := if w.Returned? then remaining - {p} else remaining;
    var obs := if w == Returned(true) then Remove(ops, observer, p).observer else observer;
    ShapeStep(start, snapshot, waits, trace, used, p);
    ReturnedStep(trace, p, w);
    NoWaitStep(trace, |snapshot|, p, w);
    ObserverStep(ops, start, trace, observer, p, w);
    CountStep(start, waits, used, remaining, p);
    ReapingIntro(ops, start, snapshot, waits, t, used + 1, rem, obs);
  }

  /** The destroy prefix and the wait suffix grow by the wait on `p`. */
  lemma ShapeStep<D>(start: Observer<D>, snapshot: seq<Proc>, waits: seq<WaitOutcome>, trace: seq<StopEvent>,
                     used: nat, p: Proc)
    requires |trace| == |snapshot| + used && used < |waits|
    requires forall k :: 0 <= k < |snapshot| ==> trace[k] == Destroyed(snapshot[k])
    requires forall k :: |snapshot| <= k < |trace| ==>
               trace[k].Waited? && trace[k].proc in start.processes && trace[k].outcome == waits[k - |snapshot|]
    requires p in start.processes
    ensures var t := trace + [Waited(p, waits[used])];
            && (forall k :: 0 <= k < |snapshot| ==> t[k] == Destroyed(snapshot[k]))
            && (forall k :: |snapshot| <= k < |t| ==>
                  t[k].Waited? && t[k].proc in start.processes && t[k].outcome == waits[k - |snapshot|])
  {
    var t := trace + [Waited(p, waits[used])];
    assert forall k :: 0 <= k < |trace| ==> t[k] == trace[k];
  }

  /** The remaining count drops by one per returned wait. */
  lemma CountStep<D>(start: Observer<D>, waits: seq<WaitOutcome>, used: nat, remaining: set<Proc>, p: Proc)
    requires used < |waits| && p in remaining
    requires AllReturn(waits) ==> |remaining| + used == |start.processes|
    ensures AllReturn(waits) ==>
              |if waits[used].Returned? then remaining - {p} else remaining| + used + 1 == |start.processes|
  {
    if AllReturn(waits) {
      assert waits[used].Returned?;
      assert |remaining - {p}| == |remaining| - 1;
    }
  }

  lemma ReapingIntro<D>(ops: DelegateOps<D>, start: Observer<D>, snapshot: seq<Proc>, waits: seq<WaitOutcome>,
                        trace: seq<StopEvent>, used: nat, remaining: set<Proc>, observer: Observer<D>)
    requires |trace| == |snapshot| + used && used <= |waits|
    requires forall k :: 0 <= k < |snapshot| ==> trace[k] == Destroyed(snapshot[k])
    requires forall k :: |snapshot| <= k < |trace| ==>
               trace[k].Waited? && trace[k].proc in start.processes && trace[k].outcome == waits[k - |snapshot|]
    requires remaining == start.processes - ReturnedIn(trace) && NoWaitAfterReturn(trace, |snapshot|)
    requires observer == Replay(ops, start, Unregistrations(trace))
    requires AllReturn(waits) ==> |remaining| + used == |start.processes|
    ensures Reaping(ops, start, snapshot, waits, trace, used, remaining, observer)
  {
  }

  /** After `j` waits of a pass that began with `trace0`: the trace is
      `trace0` followed by one wait on each of the first `j` processes of the
      pass, with the next `j` outcomes of the oracle. */
  predicate PassSoFar(trace0: seq<StopEvent>, trace: seq<StopEvent>, pass: seq<Proc>, waits: seq<WaitOutcome>,
                      used0: nat, j: nat)
  {
    && j <= |pass| && used0 + j <= |waits|
    && |trace| == |trace0| + j && trace[..|trace0|] == trace0
    && forall k :: 0 <= k < j ==> trace[|trace0| + k] == Waited(pass[k], waits[used0 + k])
  }

  lemma PassStep(trace0: seq<StopEvent>, trace: seq<StopEvent>, pass: seq<Proc>, waits: seq<WaitOutcome>,
                 used0: nat, j: nat)
    requires PassSoFar(trace0, trace, pass, waits, used0, j)
    requires j < |pass| && used0 + j < |waits|
    ensures PassSoFar(trace0, trace + [Waited(pass[j], waits[used0 + j])], pass, waits, used0, j + 1)
  {
    var t := trace + [Waited(pass[j], waits[used0 + j])];
    assert t[..|trace0|] == trace[..|trace0|];
    assert forall i :: 0 <= i < |trace| ==> t[i] == trace[i];
  }

  /** One pass of the outer loop: waits once on each process awaited when
      the pass began, in the order of a fresh iterator over them, until the
      oracle runs out. */
  method WaitPass<D>(ops: DelegateOps<D>, start: Observer<D>, snapshot: seq<Proc>, waits: seq<WaitOutcome>,
                     trace0: seq<StopEvent>, used0: nat, remaining0: set<Proc>, observer0: Observer<D>)
    returns (pass: seq<Proc>, trace: seq<StopEvent>, used: nat, remaining: set<Proc>, observer: Observer<D>)
    requires Reaping(ops, start, snapshot, waits, trace0, used0, remaining0, observer0)
    requires remaining0 != {} && used0 < |waits|
    ensures Reaping(ops, start, snapshot, waits, trace, used, remaining, observer)
    ensures Enumerates(pass, remaining0)
    ensures used - used0 == Min(|pass|, |waits| - used0)
    ensures PassSoFar(trace0, trace, pass, waits, used0, used - used0)
    ensures used0 < used
  {
    trace, used, remaining, observer := trace0, used0, remaining0, observer0;
    pass := ToSequence(remaining);
    assert |pass| > 0 by {
      var x :| x in remaining;
      assert x in pass;
    }
    var j := 0;
    while j < |pass| && used < |waits|
      invariant 0 <= j <= |pass|
      invariant used == used0 + j
      invariant Reaping(ops, start, snapshot, waits, trace, used, remaining, observer)
      invariant forall t :: j <= t < |pass| ==> pass[t] in remaining
      invariant PassSoFar(trace0, trace, pass, waits, used0, j)
      decreases |pass| - j
    {
      var p := pass[j];
      var w := waits[used];
      WaitStep(ops, start, snapshot, waits, trace, used, remaining, observer, p);
      PassStep(trace0, trace, pass, waits, used0, j);
      trace := trace + [Waited(p, w)];
      if w.Returned? {
        remaining := remaining - {p};
        if w.unregistered {
          observer := Remove(ops, observer, p).observer;
        }
      }
      used := used + 1;
      j := j + 1;
    }
  }

  /** The processes of successive passes, one after the other. */
  function Order(passes: seq<seq<Proc>>): seq<Proc>
    decreases |passes|
  {
    if |passes| == 0 then [] else Order(passes[..|passes| - 1]) + passes[|passes| - 1]
  }

  /** The waits after the destroys come in passes: each pass lists, in
      iteration order, the processes still awaited when it began, and the
      waits go through the passes in order, one per process, every pass but
      the last one complete, and the last cut short only when the oracle ran
      out. */
  predicate InPasses(processes: set<Proc>, n: nat, waits: seq<WaitOutcome>, trace: seq<StopEvent>, used: nat,
                     passes: seq<seq<Proc>>)
  {
    && |trace| == n + used && used <= |waits|
    && used <= |Order(passes)|
    && (used < |Order(passes)| ==> used == |waits|)
    && (|passes| > 0 ==> |Order(passes[..|passes| - 1])| < used)
    && (forall k :: 0 <= k < used ==> trace[n + k] == Waited(Order(passes)[k], waits[k]))
    && (forall k :: 0 <= k < |passes| ==>
          PassBegan(processes, n, trace, passes, k))
  }

  /** Pass `k` lists the processes still awaited once the passes before it
      were done. */
  predicate PassBegan(processes: set<Proc>, n: nat, trace: seq<StopEvent>, passes: seq<seq<Proc>>, k: nat)
    requires k < |passes|
  {
    && n + |Order(passes[..k])| <= |trace|
    && Enumerates(passes[k], processes - ReturnedIn(trace[..n + |Order(passes[..k])|]))
  }

  lemma PrefixKept(trace0: seq<StopEvent>, trace: seq<StopEvent>, m: nat)
    requires m <= |trace0| <= |trace| && trace[..|trace0|] == trace0
    ensures trace[..m] == trace0[..m]
  {
    assert trace[..m] == trace[..|trace0|][..m];
  }

  lemma OrderSnoc(passes: seq<seq<Proc>>, pass: seq<Proc>)
    ensures Order(passes + [pass]) == Order(passes) + pass
  {
    assert (passes + [pass])[..|passes|] == passes;
  }

  /** A complete or oracle-limited pass over the awaited processes extends
      the passes so far. */
  lemma PassAppended(processes: set<Proc>, n: nat, waits: seq<WaitOutcome>, trace0: seq<StopEvent>, used0: nat,
                     passes: seq<seq<Proc>>, pass: seq<Proc>, trace: seq<StopEvent>, used: nat)
    requires InPasses(processes, n, waits, trace0, used0, passes)
    requires used0 == |Order(passes)|
    requires Enumerates(pass, processes - ReturnedIn(trace0))
    requires used0 < used && used - used0 == Min(|pass|, |waits| - used0)
    requires PassSoFar(trace0, trace, pass, waits, used0, used - used0)
    ensures InPasses(processes, n, waits, trace, used, passes + [pass])
  {
    var ps := passes + [pass];
    OrderSnoc(passes, pass);
    assert ps[..|ps| - 1] == passes;
    assert |trace| == n + used && used <= |waits|;
    assert used <= |Order(ps)|;
    assert used < |Order(ps)| ==> used == |waits|;
    assert |ps| > 0 ==> |Order(ps[..|ps| - 1])| < used;
    PassWaits(n, waits, trace0, used0, passes, pass, trace, used);
    PassEnumerates(processes, n, waits, trace0, used0, passes, pass, trace, used);
    InPassesIntro(processes, n, waits, trace, used, ps);
  }

  lemma InPassesIntro(processes: set<Proc>, n: nat, waits: seq<WaitOutcome>, trace: seq<StopEvent>, used: nat,
                      passes: seq<seq<Proc>>)
    requires |trace| == n + used && used <= |waits|
    requires used <= |Order(passes)|
    requires used < |Order(passes)| ==> used == |waits|
    requires |passes| > 0 ==> |Order(passes[..|passes| - 1])| < used
    requires forall k :: 0 <= k < used ==> trace[n + k] == Waited(Order(passes)[k], waits[k])
    requires forall k :: 0 <= k < |passes| ==> PassBegan(processes, n, trace, passes, k)
    ensures InPasses(processes, n, waits, trace, used, passes)
  {
  }

  /** The waits of the new pass follow those of the earlier passes. */
  lemma PassWaits(n: nat, waits: seq<WaitOutcome>, trace0: seq<StopEvent>, used0: nat,
                  passes: seq<seq<Proc>>, pass: seq<Proc>, trace: seq<StopEvent>, used: nat)
    requires |trace0| == n + used0 && used0 == |Order(passes)| && used0 <= |waits|
    requires forall k :: 0 <= k < used0 ==> trace0[n + k] == Waited(Order(passes)[k], waits[k])
    requires used0 <= used && used - used0 <= |pass|
    requires PassSoFar(trace0, trace, pass, waits, used0, used - used0)
    ensures forall k :: 0 <= k < used ==> trace[n + k] == Waited(Order(passes + [pass])[k], waits[k])
  {
    OrderSnoc(passes, pass);
    forall k | 0 <= k < used
      ensures trace[n + k] == Waited(Order(passes + [pass])[k], waits[k])
    {
      if k < used0 {
        assert trace[n + k] == trace[..|trace0|][n + k];
      } else {
        assert trace[|trace0| + (k - used0)] == Waited(pass[k - used0], waits[used0 + (k - used0)]);
      }
    }
  }

  /** The new pass, like the earlier ones, lists the processes awaited when
      it began. */
  lemma PassEnumerates(processes: set<Proc>, n: nat, waits: seq<WaitOutcome>, trace0: seq<StopEvent>, used0: nat,
                       passes: seq<seq<Proc>>, pass: seq<Proc>, trace: seq<StopEvent>, used: nat)
    requires |trace0| == n + used0 && used0 == |Order(passes)|
    requires forall k :: 0 <= k < |passes| ==> PassBegan(processes, n, trace0, passes, k)
    requires Enumerates(pass, processes - ReturnedIn(trace0))
    requires |trace0| <= |trace| && trace[..|trace0|] == trace0
    ensures forall k :: 0 <= k < |passes| + 1 ==> PassBegan(processes, n, trace, passes + [pass], k)
  {
    var ps := passes + [pass];
    forall k | 0 <= k < |ps|
      ensures PassBegan(processes, n, trace, ps, k)
    {
      if k < |passes| {
        assert PassBegan(processes, n, trace0, passes, k);
        assert ps[..k] == passes[..k] && ps[k] == passes[k];
        PrefixKept(trace0, trace, n + |Order(passes[..k])|);
      } else {
        assert ps[..k] == passes && ps[k] == pass;
        assert trace[..n + |Order(ps[..k])|] == trace0;
      }
    }
  }

  /** The two loops of the goal on the observer `start`: destroy every
      snapshot process, then wait pass after pass until none is awaited or
      the oracle runs out. */
  method Reap<D>(ops: DelegateOps<D>, start: Observer<D>, waits: seq<WaitOutcome>)
    returns (snapshot: seq<Proc>, trace: seq<StopEvent>, remaining: set<Proc>, passes: seq<seq<Proc>>, used: nat,
             observer: Observer<D>)
    ensures Enumerates(snapshot, start.processes)
    ensures Reaping(ops, start, snapshot, waits, trace, used, remaining, observer)
    ensures InPasses(start.processes, |snapshot|, waits, trace, used, passes)
    ensures remaining == {} || used == |waits|
    ensures AllReturn(waits) && |waits| >= |start.processes| ==> remaining == {} && used == |start.processes|
  {
    snapshot := Iterator(start);
    trace, remaining := DestroyAll(snapshot);
    observer := start;
    used := 0;
    passes := [];
    assert ReturnedIn(trace) == {} && Unregistrations(trace) == [] by {
      NoWaitsYet(trace);
    }
    while remaining != {} && used < |waits|
      invariant Reaping(ops, start, snapshot, waits, trace, used, remaining, observer)
      invariant InPasses(start.processes, |snapshot|, waits, trace, used, passes)
      decreases |waits| - used
    {
      var trace0, used0 := trace, used;
      var pass;
      pass, trace, used, remaining, observer := WaitPass(ops, start, snapshot, waits, trace, used, remaining, observer);
      PassAppended(start.processes, |snapshot|, waits, trace0, used0, passes, pass, trace, used);
      passes := passes + [pass];
    }
  }

  /** The context once the loops are over: the entry goes when the goal
      finished and the observer's `size()` is zero, and otherwise holds the
      observer as the goal left it. */
  function Settle<D>(ops: DelegateOps<D>, ctx: Context<D>, key: string, finished: bool, observer: Observer<D>): (c: Context<D>)
    ensures forall k :: k != key ==> (k in c <==> k in ctx)
    ensures forall k :: k != key && k in ctx ==> c[k] == ctx[k]
    ensures key !in c <==> finished && Size(ops, observer) == 0
    ensures key in c ==> c[key] == observer
  {
    if finished && Size(ops, observer) == 0 then ctx - {key} else ctx[key := observer]
  }

  /** The `stop` goal on `port`. */
  method Stop<D>(ops: DelegateOps<D>, ctx: Context<D>, port: Int32, waits: seq<WaitOutcome>) returns (r: StopRun<D>)
    // no observer under the key: nothing happens
    ensures ObserverKey(port) !in ctx <==> r.status == NothingToStop
    ensures ObserverKey(port) !in ctx ==> r.trace == [] && r.context == ctx
    // no other entry of the context is touched
    ensures forall k :: k != ObserverKey(port) ==> (k in r.context <==> k in ctx)
    ensures forall k :: k != ObserverKey(port) && k in ctx ==> r.context[k] == ctx[k]
    // the snapshot is the observer's local set when stop began
    ensures ObserverKey(port) in ctx ==> Enumerates(r.snapshot, ctx[ObserverKey(port)].processes)
    // every snapshot process is destroyed, before any wait; then one wait
    // per event, on a snapshot process, as the oracle says
    ensures ObserverKey(port) in ctx ==>
              r.observer.Some? &&
              Reaping(ops, ctx[ObserverKey(port)], r.snapshot, waits, r.trace, r.waitsUsed, r.remaining, r.observer.value)
    // the waits come in passes over the processes still awaited
    ensures ObserverKey(port) in ctx ==>
              InPasses(ctx[ObserverKey(port)].processes, |r.snapshot|, waits, r.trace, r.waitsUsed, r.passes)
    // the loop ends with every snapshot process returned, or blocked
    ensures ObserverKey(port) in ctx ==>
              && (r.status == Stopped <==> r.remaining == {})
              && (r.status == Blocked ==> r.waitsUsed == |waits|)
    // the entry goes exactly when the goal finished and the observer is empty
    ensures r.status == Stopped ==> (ObserverKey(port) !in r.context <==> Size(ops, r.observer.value) == 0)
    ensures r.status != NothingToStop && ObserverKey(port) in r.context ==>
              r.context[ObserverKey(port)] == r.observer.value
    // when every wait returns, one wait per process suffices
    ensures ObserverKey(port) in ctx && AllReturn(waits) && |waits| >= |ctx[ObserverKey(port)].processes| ==>
              r.status == Stopped && r.waitsUsed == |ctx[ObserverKey(port)].processes|
  {
    var key := ObserverKey(port);
    if key !in ctx {
      return StopRun(NothingToStop, [], [], {}, [], 0, None, ctx);
    }
    var start := ctx[key];
    var snapshot, trace, remaining, passes, used, observer := Reap(ops, start, waits);
    var status := if remaining == {} then Stopped else Blocked;
    var context := Settle(ops, ctx, key, status == Stopped, observer);
    r := StopRun(status, snapshot, trace, remaining, passes, used, Some(observer), context);
  }

  /** A trace of destroys reports no return and no unregistration. */
  lemma {:induction false} NoWaitsYet(trace: seq<StopEvent>)
    requires forall k :: 0 <= k < |trace| ==> trace[k].Destroyed?
    ensures ReturnedIn(trace) == {}
    ensures Unregistrations(trace) == []
    decreases |trace|
  {
    if |trace| > 0 {
      NoWaitsYet(trace[..|trace| - 1]);
    }
  }

  /** Appending a wait to the trace adds its process to the returned set
      exactly when the wait returned. */
  lemma ReturnedStep(trace: seq<StopEvent>, p: Proc, w: WaitOutcome)
    ensures ReturnedIn(trace + [Waited(p, w)]) == ReturnedIn(trace) + (if w.Returned? then {p} else {})
  {
    var t := trace + [Waited(p, w)];
    assert t[..|t| - 1] == trace;
  }

  /** A wait on a process whose wait has not returned keeps the
      no-wait-after-return property. */
  lemma NoWaitStep(trace: seq<StopEvent>, n: nat, p: Proc, w: WaitOutcome)
    requires n <= |trace|
    requires p !in ReturnedIn(trace)
    requires NoWaitAfterReturn(trace, n)
    ensures NoWaitAfterReturn(trace + [Waited(p, w)], n)
  {
    forall a | n <= a < |trace| && trace[a].Waited? && trace[a].outcome.Returned?
      ensures trace[a].proc != p
    {
      ReturnedInContains(trace, a);
    }
  }
}
